=== FILE: README.md ===
# Madmate plugin: game-rules model

A Dafny model of the game-rules logic of the madmate plugin for the Impostor
game server (`GameEventListener`). The plugin adds two secret roles to the
game: **madmates** (crewmates secretly on the impostors' side) and **spies**
(crewmates told who the impostors are). It has three pieces of logic, and each
is modelled as pure functions over immutable records:

- **Chat commands** (`Commands`, `commands.dfy`). The host types commands in
  the lobby. The guard in `OnPlayerChat` drops any message sent after the game
  has started, any message without a leading `/`, and any message from a
  player who is not the host. `DoCommands` lower-cases the message, drops the
  `/`, splits on single spaces and dispatches on the first word:
  - `impostors n`, `spy n` and `madmate n` store `n` clamped to [1,3];
  - `map name` picks a known map, matching case-insensitively;
  - any other word is ignored.

  A command returns the new configuration and an ordered list of effects.
  The effects are replies to the sender (by kind, not by wording) and
  settings-sync calls. `spy` is the one command that never syncs.
- **Role selection** (`Roles`, `roles.dfy`). At game start the plugin runs two
  loops, one for madmates and one for spies. Each draws an index in
  [0, target), looks up that player, and appends the player's id to a list
  when the player is eligible. The model follows the code as written:
  - the index range is the target, not the player count, so a draw can fall
    past the last player, and `ElementAt` then throws;
  - the madmate list is not checked for duplicates;
  - the spy list is not checked against itself;
  - neither list is ever cleared, and one listener serves every game on the
    server (Plugin.cs:53), so the lists and the spy and madmate targets are
    shared by all games, concurrent ones included;
  - the loops need not terminate.

  The random draws are a caller-supplied sequence. A run over them ends
  `Filled`, `Stalled` (draws used up with the loop still running) or
  `Thrown`.
- **End-of-game report** (`Report`, `report.dfy`). Each player gets exactly
  one category, with precedence impostor > spy > madmate > crewmate: the code
  tests `isSpy` before `isMadMate` (GameEventListener.cs:103-108), so a player
  on both lists is reported as a spy. Every player who is not a crewmate
  announces their role in public chat.

`Text` (`text.dfy`) holds the string primitives these rely on:
- invariant lower-casing;
- `String.Split(" ")`, which keeps empty pieces;
- `int.TryParse` for 32-bit integers.

Host objects are abstract:
- a player is `(id, name, isImpostor)`;
- the names of `MapTypes` are a sequence parameter `mapNames`;
- the configuration is a record with the host's impostor count and map and
  the listener's spy and madmate targets.

## Model

| member | source | states |
|---|---|---|
| Text.Lower | GameEventListener.cs:132 | lower-casing keeps the length, turns each letter A–Z into the letter the same distance past `a`, leaves no upper-case letter, and changes nothing else |
| Text.Split | GameEventListener.cs:132 | `Split(" ")` gives at least one piece, no piece contains the separator, and joining the pieces with it gives the message back |
| Text.SplitPiecesFrom | GameEventListener.cs:132 | every character of a piece of `Split(" ")` is a character of the split message |
| Text.SplitJoin | GameEventListener.cs:132 | splitting the join of space-free pieces returns exactly those pieces, so the verb and argument of a command are recovered |
| Text.ParseInt32 | GameEventListener.cs:143 | `int.TryParse` succeeds exactly on an optionally signed digit string whose value fits in 32 bits, and yields that value |
| Text.ParseShowInt | GameEventListener.cs:143 | every 32-bit integer, written in decimal, parses back to itself and contains no space |
| Commands.Words | GameEventListener.cs:132 | the words of a message are at least one, none contains a space or an upper-case letter, and joined with single spaces they give the lower-cased message without its first character |
| Commands.ParseVerb | GameEventListener.cs:134-211 | the words `impostors`, `spy`, `madmate` and `map` select their own case, each exactly when the word is that label; every other word falls to the default case and keeps the word |
| Commands.Clamp | GameEventListener.cs:145 | `Math.Clamp(n, 1, 3)` lies in [1,3], is `n` inside the range and the nearer bound outside it |
| Commands.FindMap | GameEventListener.cs:196-202 | a map is found exactly when some known name lower-cases to the argument; the one found is a known name with that lower-case form, and no earlier known name has it |
| Commands.CountCommand | GameEventListener.cs:143-187 | the argument branches of `impostors` (143-152), `spy` (161-169) and `madmate` (178-187): a parsed argument stores `Math.Clamp(n, 1, 3)` of its value and is confirmed with that count, then synced unless the verb is `spy`; an unparsable one gets exactly one conversion-failure reply quoting it, changes nothing and does not sync; only the verb's own field can change |
| Commands.MapCommand | GameEventListener.cs:196-207 | a known map is stored as a known name that lower-cases to the argument, confirmed and synced once; an unknown one gets exactly the list of accepted names and nothing else, so nothing changes and nothing syncs |
| Commands.Dispatch | GameEventListener.cs:134-212 | only the field the verb names can change; an unknown verb has no effect; a known verb gets exactly one reply; after an error reply nothing changes and nothing syncs; there is one sync exactly when a non-spy confirmation is sent; a missing argument changes nothing, and gets exactly the usage reply for a count verb and exactly the list of accepted names for `map`; a stored count is the clamped argument; a count verb whose argument is not an integer yields exactly one conversion-failure reply and nothing else; any changed count is in [1,3]; an unknown map name, whatever words follow it, gets exactly the list of accepted names and nothing else; a map is accepted exactly when some known name lower-cases to the argument, and is then stored as a known name with that lower-case form; a changed map is a known name |
| Commands.DoCommands | GameEventListener.cs:128-134 | a command sends at most one reply and at most one sync, and a command with no effects leaves the configuration alone |
| Commands.OnPlayerChat | GameEventListener.cs:121-126 | a message sent after the lobby, without the `/` prefix, or from a non-host has no effect at all; a host's `/` message sent in the lobby is run as a command |
| Commands.WordsOfCommand | GameEventListener.cs:132 | the words of `/verb arg` are the lower-cased verb and argument when neither contains a space |
| Commands.SetCountCommand | GameEventListener.cs:136-188 | `/impostors n`, `/spy n` and `/madmate n` (verb in any case) store `clamp(n,1,3)` in their own field only and send one confirmation; impostors and madmate then sync once, spy never |
| Commands.SelectMapCommand | GameEventListener.cs:189-207 | `/map name` with a known name in any case stores a known name equal to it up to case, changing nothing else, and sends one confirmation and one sync; when known names differ beyond case it is that very name |
| Commands.RejectedCountArgument | GameEventListener.cs:143-187 | a count verb with a non-integer argument sends one conversion-failure reply quoting the lower-cased argument, changes nothing and does not sync |
| Commands.RejectedMapName | GameEventListener.cs:196-200 | `/map` with an unknown name replies with the accepted names, changes nothing and does not sync |
| Commands.BareSlashIgnored | GameEventListener.cs:209-211 | a bare `/` is an unknown empty verb: no reply, no change |
| Commands.CommandIdempotent | GameEventListener.cs:134-212 | repeating a command leaves the configuration where the first one put it |
| Commands.SessionSettles | GameEventListener.cs:121-212 | over any sequence of chat messages, every count stays its initial value or lies in [1,3], the map stays its initial value or is a known name, and there are no more syncs than messages |
| Roles.ImpostorIntel | GameEventListener.cs:73-81 | the intel sent to a new spy has one message per impostor, every one addressed to the spy and naming a player |
| Roles.IntelNamesImpostors | GameEventListener.cs:73-81 | every name in the intel is the name of an impostor |
| Roles.IntelNamesEveryImpostor | GameEventListener.cs:73-81 | every impostor's name is in the intel sent to the spy |
| Roles.SpyNoticesCount | GameEventListener.cs:63-83 | each new spy is sent one notice plus one message per impostor |
| Roles.MadMateStep | GameEventListener.cs:52-60 | one madmate iteration throws exactly when the draw is past the last player; otherwise it appends exactly when the drawn player is no impostor, and then appends exactly that player's id and tells that player; the spy list is left alone |
| Roles.SpyStep | GameEventListener.cs:65-82 | one spy iteration throws exactly when the draw is past the last player; otherwise it appends exactly when the drawn player is no impostor and not a madmate, and then appends exactly that player's id and sends that player the notice and the impostor intel; the madmate list is left alone |
| Roles.SelectMadMates | GameEventListener.cs:50-61 | the madmate loop only appends non-impostor ids, leaves the spy list alone, finishes exactly when the target is reached, never overshoots it, and tells each new madmate once, in order |
| Roles.SelectSpys | GameEventListener.cs:63-83 | the spy loop only appends ids of non-impostors that are not madmates, leaves the madmate list alone, finishes exactly when the target is reached, never overshoots it, and sends each new spy the notice and intel, in order |
| Roles.MadMatesFollowDraws | GameEventListener.cs:49-60 | the new madmates are a prefix of the ids of the non-impostors the draws hit, in draw order, up to the first draw past the last player; all of them unless the target stopped the loop; and draws hitting enough of them fill the list |
| Roles.MadMateRunEnds | GameEventListener.cs:49-53 | a madmate run throws only when some draw is past the last player, and runs out of draws only when every draw indexed a player |
| Roles.SpysFollowDraws | GameEventListener.cs:62-82 | the new spies are a prefix of the ids of the players the draws hit that are neither impostors nor madmates, in draw order, up to the first draw past the last player; all of them unless the target stopped the loop; and draws hitting enough of them fill the list |
| Roles.SpyRunEnds | GameEventListener.cs:62-66 | a spy run throws only when some draw is past the last player, and runs out of draws only when every draw indexed a player |
| Roles.StartFollowsDraws | GameEventListener.cs:49-82 | a game start appends a prefix of what the madmate draws hit, all of it unless the madmate target was met, then a prefix of what the spy draws hit among non-madmates, all of it when the spy loop ran without finishing; draws that all index a player never make it throw |
| Roles.OnGameStarted | GameEventListener.cs:40-84 | both lists only grow; new madmates and new spies are non-impostors, no new spy is a madmate; finishing means both targets are met; spies are chosen only after the madmate target is met; the messages sent are the madmate notices to the new madmates in order, followed by the notice and intel for each new spy in order |
| Roles.StartKeepsRolesApart | GameEventListener.cs:50-83 | starting with no leftover spies, no id is both madmate and spy; with unique ids and non-impostor leftover madmates, no impostor holds a secret role |
| Roles.MadMatesStallAmongImpostors | GameEventListener.cs:50-61 | when every reachable player is an impostor, the madmate loop never finishes and changes nothing |
| Roles.SpysStallWithoutCandidates | GameEventListener.cs:63-83 | when every reachable player is an impostor or a madmate, the spy loop never finishes and changes nothing |
| Roles.RolesCarryOver | GameEventListener.cs:50-83 | lists already at their targets from an earlier game make a new start select nobody and send nothing |
| Roles.MadMateListedTwice | GameEventListener.cs:56-58 | drawing the same crewmate twice lists them twice as madmate |
| Roles.DrawPastPlayersThrows | GameEventListener.cs:52-53 | with one player and a target of two, the draw 1 throws |
| Report.Classify | GameEventListener.cs:95-116 | an impostor is always reported as impostor; a non-impostor on the spy list as spy; else one on the madmate list as madmate; else crewmate |
| Report.OnGameEnded | GameEventListener.cs:91-117 | the announcements are as many as the players minus the crewmates, and none is a crewmate's |
| Report.CategoriesPartitionPlayers | GameEventListener.cs:98-116 | the four category counts add up to the number of players |
| Report.AnnouncedExactlyNonCrew | GameEventListener.cs:91-117 | an announcement is made exactly for each non-crewmate player, naming that player and their category |
| Report.ReportMatchesSelection | GameEventListener.cs:95-111 | after a start with no leftover spies, unique ids and non-impostor leftover madmates, every selected spy is reported as spy and every selected madmate as madmate |

## Left out

- Plugin.cs: plugin metadata, enabling and disabling, and listener registration are host plumbing with no logic.
- Sharing between games: Plugin.cs:53 registers a single `GameEventListener`, so its role lists and its spy and madmate targets are server-wide. Another game's commands and selections, including those of a game running at the same time, reach this game's state. The impostor count and the map are per game (`e.Game.Options`). The model describes one game at a time: the incoming `Config` and `RoleState` are unconstrained parameters, which covers any value other games left. Interleaving with another game's events while a selection loop runs is not modelled.
- Fire-and-forget `Task.Run` and `async`/`await` (GameEventListener.cs:126-128): a command is a synchronous function returning its effects in order. A failing send or sync call is host I/O and is not modelled.
- Logging: it has no effect on state.
- `System.Random`: the draws are a caller-supplied sequence in [0, target). The distribution is not modelled. Termination is not proved because the code does not guarantee it; a run that uses up its draws ends `Stalled`.
- Reflection over `MapTypes`: the map names are the parameter `mapNames`. `Enum.Parse(…, ignoreCase)` is modelled as the first name that matches up to case. Numeric map strings never reach it, because the name check comes first.
- Reply texts: replies are tagged kinds (usage, conversion failure, confirmation, unknown map) carrying the values they mention.
- Text.Lower: folds only the ASCII letters A–Z. `ToLowerInvariant` also folds other Unicode letters, which matters only for non-ASCII commands.
- Text.ParseInt32: accepts an optional `+`/`-` and ASCII digits. The leading and trailing whitespace that `int.TryParse` also allows (tabs and the like; a space never reaches it after the split) is not modelled, and neither are culture-specific sign symbols.
- Commands.IsCommand: tests the first character for `/` ordinally. The code's `StartsWith("/")` is culture-sensitive, and this differs only when the message starts with characters the culture ignores.
- Null host objects, such as a player without a character, are not modelled.

=== FILE: commands.dfy ===
/**
 The chat-command interpreter of the game listener: the guard on a chat
 message (`OnPlayerChat`) and the verb dispatch that follows it
 (`DoCommands`). A command is a pure function from the configuration and
 the message to the new configuration and the ordered list of effects the
 handler performs: replies to the sender and settings-sync calls.
 */
module Commands {
  import opened Text

  /** The host's game states; commands are accepted only before the game starts. */
  datatype GameState = NotStarted | Starting | Started | Ended | Destroyed

  /**
   The configuration a command may change: the host's impostor count and map
   (`Game.Options`), and the listener's own spy and madmate targets. The map is
   held by its canonical name.
   */
  datatype Config = Config(numImpostors: int, mapName: string, numSpys: int, numMadMates: int)

  datatype Verb = Impostors | Spy | MadMate | Map | Other(word: string) {
    predicate IsCount() {
      Impostors? || Spy? || MadMate?
    }
  }

  /** The replies sent to the command's sender, by kind rather than by wording. */
  datatype Reply =
    | Usage(verb: Verb)                  // a count verb without an argument
    | MapUsage(accepted: seq<string>)    // `map` without an argument
    | NotANumber(arg: string)            // the argument is not a 32-bit integer
    | CountSet(verb: Verb, n: int)       // confirmation of a count
    | UnknownMap(accepted: seq<string>)  // no map has that name
    | MapSet(name: string)               // confirmation of a map

  datatype Effect = Say(reply: Reply) | SyncSettings

  datatype Outcome = Outcome(config: Config, effects: seq<Effect>)

  /** The number of settings-sync calls among `effects`. */
  function SyncCount(effects: seq<Effect>): nat
  {
    if |effects| == 0 then 0
    else (if effects[0].SyncSettings? then 1 else 0) + SyncCount(effects[1..])
  }

  /** The replies among `effects`, in the order they are sent. */
  function Replies(effects: seq<Effect>): seq<Reply>
  {
    if |effects| == 0 then []
    else (if effects[0].Say? then [effects[0].reply] else []) + Replies(effects[1..])
  }

  /** A reply alone, or a reply followed by one sync. */
  lemma ReplyEffects(r: Reply)
    ensures Replies([Say(r)]) == [r] && SyncCount([Say(r)]) == 0
    ensures Replies([Say(r), SyncSettings]) == [r] && SyncCount([Say(r), SyncSettings]) == 1
  {
    assert [Say(r), SyncSettings][1..] == [SyncSettings];
    assert [SyncSettings][1..] == [];
  }

  predicate IsError(r: Reply) {
    r.Usage? || r.MapUsage? || r.NotANumber? || r.UnknownMap?
  }

  /** A confirmation that the host is told about with a settings sync. */
  predicate IsSyncedConfirmation(r: Reply) {
    r.MapSet? || (r.CountSet? && r.verb != Spy)
  }

  // ---------------------------------------------------------------- parsing

  function ParseVerb(word: string): (v: Verb)
    ensures v == Impostors <==> word == "impostors"
    ensures v == Spy <==> word == "spy"
    ensures v == MadMate <==> word == "madmate"
    ensures v == Map <==> word == "map"
    ensures v.Other? <==> word !in {"impostors", "spy", "madmate", "map"}
    ensures v.Other? ==> v.word == word
  {
    if word == "impostors" then Impostors
    else if word == "spy" then Spy
    else if word == "madmate" then MadMate
    else if word == "map" then Map
    else Other(word)
  }

  /** The words of a command: lower-cased, the leading character dropped, split on single spaces. */
  function Words(message: string): (parts: seq<string>)
    requires |message| >= 1
    ensures |parts| >= 1
    ensures Join(parts, ' ') == Lower(message[1..])
    ensures forall i :: 0 <= i < |parts| ==> ' ' !in parts[i]
    ensures forall i, k :: 0 <= i < |parts| && 0 <= k < |parts[i]| ==> !IsUpper(parts[i][k])
  {
    LowerSlice(message, 1);
    SplitPiecesFrom(Lower(message)[1..], ' ');
    Split(Lower(message)[1..], ' ')
  }

  /** `Math.Clamp(n, lo, hi)`. */
  function Clamp(n: int, lo: int, hi: int): (r: int)
    requires lo <= hi
    ensures lo <= r <= hi
    ensures lo <= n <= hi ==> r == n
    ensures n < lo ==> r == lo
    ensures n > hi ==> r == hi
  {
    if n < lo then lo else if n > hi then hi else n
  }

  /** The configured value a count verb sets. */
  function CountOf(c: Config, v: Verb): int
    requires v.IsCount()
  {
    match v
    case Impostors => c.numImpostors
    case Spy => c.numSpys
    case MadMate => c.numMadMates
  }

  function SetCount(c: Config, v: Verb, n: int): (c': Config)
    requires v.IsCount()
    ensures CountOf(c', v) == n
    ensures c'.mapName == c.mapName
    ensures forall w: Verb :: w.IsCount() && w != v ==> CountOf(c', w) == CountOf(c, w)
  {
    match v
    case Impostors => c.(numImpostors := n)
    case Spy => c.(numSpys := n)
    case MadMate => c.(numMadMates := n)
  }

  /** The configuration differs from `c` in at most the field `v` names. */
  predicate OnlyChanges(c: Config, c': Config, v: Verb) {
    && (v != Impostors ==> c'.numImpostors == c.numImpostors)
    && (v != Spy ==> c'.numSpys == c.numSpys)
    && (v != MadMate ==> c'.numMadMates == c.numMadMates)
    && (v != Map ==> c'.mapName == c.mapName)
  }

  /** Some known map name lower-cases to `arg`. */
  predicate IsKnownMap(mapNames: seq<string>, arg: string) {
    exists i :: 0 <= i < |mapNames| && Lower(mapNames[i]) == arg
  }

  /**
   The map `Enum.Parse(arg, ignoreCase)` yields once the name check has passed:
   the first known name whose lower-case form is `arg`.
   */
  function FindMap(mapNames: seq<string>, arg: string): (r: Option<string>)
    ensures r.Some? <==> IsKnownMap(mapNames, arg)
    ensures r.Some? ==> r.value in mapNames && Lower(r.value) == arg
    ensures r.Some? ==> exists i :: 0 <= i < |mapNames| && mapNames[i] == r.value &&
                                   forall j :: 0 <= j < i ==> Lower(mapNames[j]) != arg
    decreases |mapNames|
  {
    if |mapNames| == 0 then None
    else if Lower(mapNames[0]) == arg then Some(mapNames[0])
    else
      var r := FindMap(mapNames[1..], arg);
      assert IsKnownMap(mapNames, arg) ==> IsKnownMap(mapNames[1..], arg) by {
        if IsKnownMap(mapNames, arg) {
          var i :| 0 <= i < |mapNames| && Lower(mapNames[i]) == arg;
          assert i != 0;
          assert Lower(mapNames[1..][i - 1]) == arg;
        }
      }
      assert IsKnownMap(mapNames[1..], arg) ==> IsKnownMap(mapNames, arg) by {
        if IsKnownMap(mapNames[1..], arg) {
          var i :| 0 <= i < |mapNames[1..]| && Lower(mapNames[1..][i]) == arg;
          assert Lower(mapNames[i + 1]) == arg;
        }
      }
      assert r.Some? ==> exists i :: 0 <= i < |mapNames| && mapNames[i] == r.value &&
                                   forall j :: 0 <= j < i ==> Lower(mapNames[j]) != arg by {
        if r.Some? {
          var tail := mapNames[1..];
          var i :| 0 <= i < |tail| && tail[i] == r.value && forall j :: 0 <= j < i ==> Lower(tail[j]) != arg;
          assert mapNames[i + 1] == r.value;
          assert forall j :: 1 <= j < i + 1 ==> Lower(mapNames[j]) == Lower(tail[j - 1]);
        }
      }
      r
  }

  // ---------------------------------------------------------------- commands

  /** Some reply among `effects` is a confirmation the host must be told about. */
  predicate HasSyncedConfirmation(effects: seq<Effect>) {
    exists r :: r in Replies(effects) && IsSyncedConfirmation(r)
  }


  /** A count verb given an argument: parse, clamp to [1,3], confirm, store, sync unless `spy`. */
  function CountCommand(c: Config, v: Verb, arg: string): (o: Outcome)
    requires v.IsCount()
    ensures ParseInt32(arg).None? ==> Replies(o.effects) == [NotANumber(arg)]
    ensures ParseInt32(arg).Some? ==>
      Replies(o.effects) == [CountSet(v, CountOf(o.config, v))] && 1 <= CountOf(o.config, v) <= 3
    ensures OnlyChanges(c, o.config, v)
    ensures SyncCount(o.effects) == (if ParseInt32(arg).Some? && v != Spy then 1 else 0)
    ensures HasSyncedConfirmation(o.effects) <==> ParseInt32(arg).Some? && v != Spy
    ensures ParseInt32(arg).None? ==> o == Outcome(c, [Say(NotANumber(arg))])
    ensures ParseInt32(arg).Some? ==> CountOf(o.config, v) == Clamp(ParseInt32(arg).value, 1, 3)
  {
    match ParseInt32(arg)
    case None =>
      ReplyEffects(NotANumber(arg));
      Outcome(c, [Say(NotANumber(arg))])
    case Some(k) =>
      var n := Clamp(k, 1, 3);
      ReplyEffects(CountSet(v, n));
      assert CountSet(v, n) in Replies([Say(CountSet(v, n))]);
      Outcome(SetCount(c, v, n), [Say(CountSet(v, n))] + (if v == Spy then [] else [SyncSettings]))
  }

  /** `map` given an argument: accept a known name in any case, confirm, store, sync. */
  function MapCommand(c: Config, mapNames: seq<string>, arg: string): (o: Outcome)
    ensures !IsKnownMap(mapNames, arg) ==> Replies(o.effects) == [UnknownMap(mapNames)]
    ensures IsKnownMap(mapNames, arg) ==> Replies(o.effects) == [MapSet(o.config.mapName)]
    ensures OnlyChanges(c, o.config, Map)
    ensures SyncCount(o.effects) == (if IsKnownMap(mapNames, arg) then 1 else 0)
    ensures HasSyncedConfirmation(o.effects) <==> IsKnownMap(mapNames, arg)
    ensures !IsKnownMap(mapNames, arg) ==> o == Outcome(c, [Say(UnknownMap(mapNames))])
    ensures IsKnownMap(mapNames, arg) ==> o.config.mapName in mapNames && Lower(o.config.mapName) == arg
  {
    match FindMap(mapNames, arg)
    case None =>
      ReplyEffects(UnknownMap(mapNames));
      Outcome(c, [Say(UnknownMap(mapNames))])
    case Some(name) =>
      ReplyEffects(MapSet(name));
      assert MapSet(name) in Replies([Say(MapSet(name)), SyncSettings]);
      Outcome(c.(mapName := name), [Say(MapSet(name)), SyncSettings])
  }

  /**
   The verb dispatch on the words of a command. The contract states the
   interpreter's promises: only the field the verb names can change; an unknown
   verb does nothing; a known verb sends exactly one reply; an error reply
   leaves everything unchanged; each confirmation except the spy's is followed
   by exactly one sync; a stored count is the clamped argument; a map is
   accepted exactly when some known name lower-cases to the argument.
   */
  function Dispatch(parts: seq<string>, mapNames: seq<string>, c: Config): (o: Outcome)
    requires |parts| >= 1
    ensures OnlyChanges(c, o.config, ParseVerb(parts[0]))
    ensures ParseVerb(parts[0]).Other? <==> o.effects == []
    ensures !ParseVerb(parts[0]).Other? ==> |Replies(o.effects)| == 1
    ensures |Replies(o.effects)| == 1 && IsError(Replies(o.effects)[0]) ==> o.config == c && SyncCount(o.effects) == 0
    ensures SyncCount(o.effects) == (if HasSyncedConfirmation(o.effects) then 1 else 0)
    ensures |parts| == 1 ==> o.config == c && SyncCount(o.effects) == 0
    ensures |parts| == 1 && ParseVerb(parts[0]).IsCount() ==> o == Outcome(c, [Say(Usage(ParseVerb(parts[0])))])
    ensures |parts| == 1 && ParseVerb(parts[0]) == Map ==> o == Outcome(c, [Say(MapUsage(mapNames))])
    ensures ParseVerb(parts[0]).IsCount() && |parts| >= 2 && ParseInt32(parts[1]).Some? ==>
      CountOf(o.config, ParseVerb(parts[0])) == Clamp(ParseInt32(parts[1]).value, 1, 3)
    ensures o.config.numImpostors != c.numImpostors ==> 1 <= o.config.numImpostors <= 3
    ensures o.config.numSpys != c.numSpys ==> 1 <= o.config.numSpys <= 3
    ensures o.config.numMadMates != c.numMadMates ==> 1 <= o.config.numMadMates <= 3
    ensures ParseVerb(parts[0]) == Map && |parts| >= 2 ==>
      (MapSet(o.config.mapName) in Replies(o.effects) <==> IsKnownMap(mapNames, parts[1]))
    ensures o.config.mapName != c.mapName ==> o.config.mapName in mapNames
    ensures ParseVerb(parts[0]) == Map && |parts| >= 2 && !IsKnownMap(mapNames, parts[1]) ==>
      o == Outcome(c, [Say(UnknownMap(mapNames))])
    ensures ParseVerb(parts[0]) == Map && |parts| >= 2 && IsKnownMap(mapNames, parts[1]) ==>
      o.config.mapName in mapNames && Lower(o.config.mapName) == parts[1]
    ensures ParseVerb(parts[0]).IsCount() && |parts| >= 2 && ParseInt32(parts[1]).None? ==>
      o == Outcome(c, [Say(NotANumber(parts[1]))])
  {
    var v := ParseVerb(parts[0]);
    match v
    case Other(_) => Outcome(c, [])
    case Map =>
      if |parts| == 1 then
        ReplyEffects(MapUsage(mapNames));
        Outcome(c, [Say(MapUsage(mapNames))])
      else MapCommand(c, mapNames, parts[1])
    case _ =>
      if |parts| == 1 then
        ReplyEffects(Usage(v));
        Outcome(c, [Say(Usage(v))])
      else CountCommand(c, v, parts[1])
  }

  /** The command of a message that starts with the command prefix. */
  function DoCommands(message: string, mapNames: seq<string>, c: Config): (o: Outcome)
    requires |message| >= 1
    ensures SyncCount(o.effects) <= 1 && |Replies(o.effects)| <= 1
    ensures o.effects == [] ==> o.config == c
  {
    Dispatch(Words(message), mapNames, c)
  }

  /** A message starts with the command prefix. */
  predicate IsCommand(message: string) {
    |message| >= 1 && message[0] == '/'
  }

  /**
   The chat handler: outside the lobby, without the `/` prefix, or from a
   player who is not the host, a message has no effect at all.
   */
  function OnPlayerChat(state: GameState, isHost: bool, message: string, mapNames: seq<string>, c: Config): (o: Outcome)
    ensures !(state == NotStarted && IsCommand(message) && isHost) ==> o == Outcome(c, [])
    ensures state == NotStarted && IsCommand(message) && isHost ==> o == DoCommands(message, mapNames, c)
    ensures o.effects == [] ==> o.config == c
    ensures SyncCount(o.effects) <= 1 && |Replies(o.effects)| <= 1
  {
    if state != NotStarted || !IsCommand(message) || !isHost then Outcome(c, [])
    else DoCommands(message, mapNames, c)
  }

  // ---------------------------------------------------------------- sessions

  /** A chat message as the handler sees it. */
  datatype Chat = Chat(state: GameState, fromHost: bool, message: string)

  /** The effect of a sequence of chat messages handled one after the other. */
  function Session(chats: seq<Chat>, mapNames: seq<string>, c: Config): (o: Outcome)
    decreases |chats|
  {
    if |chats| == 0 then Outcome(c, [])
    else
      var first := OnPlayerChat(chats[0].state, chats[0].fromHost, chats[0].message, mapNames, c);
      var rest := Session(chats[1..], mapNames, first.config);
      Outcome(rest.config, first.effects + rest.effects)
  }

  /** Each count is still its initial value or a value some command clamped into [1,3]. */
  predicate SettledFrom(c0: Config, c: Config, mapNames: seq<string>) {
    && (c.numImpostors == c0.numImpostors || 1 <= c.numImpostors <= 3)
    && (c.numSpys == c0.numSpys || 1 <= c.numSpys <= 3)
    && (c.numMadMates == c0.numMadMates || 1 <= c.numMadMates <= 3)
    && (c.mapName == c0.mapName || c.mapName in mapNames)
  }

  // ---------------------------------------------------------------- properties

  /** A string without upper-case letters is its own lower-case form. */
  lemma LowerOfLower(s: string)
    requires forall i :: 0 <= i < |s| ==> !IsUpper(s[i])
    ensures Lower(s) == s
  {
  }

  /** The words of `/` + verb + ` ` + arg, for an argument without spaces, are the lower-cased verb and argument. */
  lemma WordsOfCommand(verb: string, arg: string)
    requires ' ' !in verb && ' ' !in arg
    ensures Words("/" + verb + " " + arg) == [Lower(verb), Lower(arg)]
  {
    var message := "/" + verb + " " + arg;
    assert message[1..] == verb + " " + arg;
    LowerConcat(verb + " ", arg);
    LowerConcat(verb, " ");
    LowerSlice(message, 1);
    assert Lower(" ") == " ";
    var parts := [Lower(verb), Lower(arg)];
    assert Join(parts, ' ') == Lower(verb) + " " + Lower(arg) by {
      assert parts[1..] == [Lower(arg)];
    }
    assert ' ' !in Lower(verb) by {
      forall i | 0 <= i < |verb| ensures Lower(verb)[i] != ' ' { }
    }
    assert ' ' !in Lower(arg) by {
      forall i | 0 <= i < |arg| ensures Lower(arg)[i] != ' ' { }
    }
    SplitJoin(parts, ' ');
  }

  /** A count verb with an argument is handled by the count command alone. */
  lemma DispatchesToCount(parts: seq<string>, mapNames: seq<string>, c: Config)
    requires |parts| >= 2 && ParseVerb(parts[0]).IsCount()
    ensures Dispatch(parts, mapNames, c) == CountCommand(c, ParseVerb(parts[0]), parts[1])
  {
  }

  /** An integer argument stores its clamped value, is confirmed, and syncs unless the verb is `spy`. */
  lemma CountAccepted(c: Config, v: Verb, arg: string)
    requires v.IsCount() && ParseInt32(arg).Some?
    ensures var k := Clamp(ParseInt32(arg).value, 1, 3);
      CountCommand(c, v, arg) == Outcome(SetCount(c, v, k), [Say(CountSet(v, k))] + (if v == Spy then [] else [SyncSettings]))
  {
  }

  /** A 32-bit number written in decimal is one lower-case word that parses back to itself. */
  lemma NumberIsOneWord(n: int)
    requires InInt32(n)
    ensures ' ' !in ShowInt(n) && Lower(ShowInt(n)) == ShowInt(n)
    ensures ParseInt32(ShowInt(n)) == Some(n)
  {
    var arg := ShowInt(n);
    ParseShowInt(n);
    assert forall i :: 0 <= i < |arg| ==> !IsUpper(arg[i]) by {
      var digits := ShowNat(if n < 0 then -n else n);
      assert forall i :: 0 <= i < |digits| ==> IsDigit(digits[i]);
      if n < 0 {
        assert forall i :: 1 <= i < |arg| ==> arg[i] == digits[i - 1];
      }
    }
    LowerOfLower(arg);
  }

  /**
   `/impostors n`, `/spy n` and `/madmate n`, with the verb in any case and any
   32-bit `n`: the count becomes `n` clamped to [1,3], the sender gets one
   confirmation carrying that value, and the host is synced unless the verb is `spy`.
   */
  lemma SetCountCommand(verb: string, n: int, mapNames: seq<string>, c: Config)
    requires ParseVerb(Lower(verb)).IsCount()
    requires InInt32(n)
    ensures var v := ParseVerb(Lower(verb)); var k := Clamp(n, 1, 3);
      DoCommands("/" + verb + " " + ShowInt(n), mapNames, c)
        == Outcome(SetCount(c, v, k), [Say(CountSet(v, k))] + (if v == Spy then [] else [SyncSettings]))
  {
    var v := ParseVerb(Lower(verb));
    assert Lower(verb) in {"impostors", "spy", "madmate"};
    assert forall i :: 0 <= i < |verb| ==> Lower(verb)[i] != ' ';
    assert ' ' !in verb;
    var arg := ShowInt(n);
    NumberIsOneWord(n);
    WordsOfCommand(verb, arg);
    var k := Clamp(n, 1, 3);
    DispatchesToCount([Lower(verb), arg], mapNames, c);
    CountAccepted(c, v, arg);
  }

  /**
   `/map name`, with the name in any case: the map becomes the first known name
   that matches case-insensitively (so `mapNames[i]` itself when known names
   differ in more than case), with one confirmation and one sync.
   */
  lemma SelectMapCommand(name: string, i: nat, mapNames: seq<string>, c: Config)
    requires i < |mapNames| && Lower(name) == Lower(mapNames[i])
    requires ' ' !in name
    ensures var o := DoCommands("/map " + name, mapNames, c);
      && o.config.mapName in mapNames && Lower(o.config.mapName) == Lower(name)
      && o.config == c.(mapName := o.config.mapName)
      && o.effects == [Say(MapSet(o.config.mapName)), SyncSettings]
    ensures (forall j :: 0 <= j < |mapNames| && j != i ==> Lower(mapNames[j]) != Lower(mapNames[i])) ==>
      DoCommands("/map " + name, mapNames, c).config.mapName == mapNames[i]
  {
    assert "/map " + name == "/" + "map" + " " + name;
    WordsOfCommand("map", name);
    assert Lower("map") == "map";
    assert IsKnownMap(mapNames, Lower(name));
  }

  /**
   A count verb in any case whose argument is not a 32-bit integer: one
   conversion-failure reply quoting the lower-cased argument, nothing changes,
   no sync.
   */
  lemma RejectedCountArgument(verb: string, arg: string, mapNames: seq<string>, c: Config)
    requires ParseVerb(Lower(verb)).IsCount()
    requires ' ' !in arg && ParseInt32(Lower(arg)).None?
    ensures DoCommands("/" + verb + " " + arg, mapNames, c) == Outcome(c, [Say(NotANumber(Lower(arg)))])
  {
    assert Lower(verb) in {"impostors", "spy", "madmate"};
    assert forall i :: 0 <= i < |verb| ==> Lower(verb)[i] != ' ';
    WordsOfCommand(verb, arg);
  }

  /** `/map` with a name no known map lower-cases to: the reply lists the known names, nothing changes, no sync. */
  lemma RejectedMapName(name: string, mapNames: seq<string>, c: Config)
    requires ' ' !in name
    requires forall i :: 0 <= i < |mapNames| ==> Lower(mapNames[i]) != Lower(name)
    ensures DoCommands("/map " + name, mapNames, c) == Outcome(c, [Say(UnknownMap(mapNames))])
  {
    assert "/map " + name == "/" + "map" + " " + name;
    WordsOfCommand("map", name);
    assert Lower("map") == "map";
  }

  /** A bare `/` is an empty, unknown verb: no reply and no change. */
  lemma BareSlashIgnored(mapNames: seq<string>, c: Config)
    ensures DoCommands("/", mapNames, c) == Outcome(c, [])
  {
  }

  /** Repeating a command leaves the configuration where the first one put it. */
  lemma CommandIdempotent(message: string, mapNames: seq<string>, c: Config)
    requires |message| >= 1
    ensures var c1 := DoCommands(message, mapNames, c).config;
      DoCommands(message, mapNames, c1).config == c1
  {
  }

  /**
   However many chat messages arrive, every count is its initial value or in
   [1,3], the map is its initial value or a known name, and there are no more
   syncs than messages.
   */
  lemma {:induction false} SessionSettles(chats: seq<Chat>, mapNames: seq<string>, c0: Config, c: Config)
    requires SettledFrom(c0, c, mapNames)
    ensures SettledFrom(c0, Session(chats, mapNames, c).config, mapNames)
    ensures SyncCount(Session(chats, mapNames, c).effects) <= |chats|
    decreases |chats|
  {
    if |chats| > 0 {
      var first := OnPlayerChat(chats[0].state, chats[0].fromHost, chats[0].message, mapNames, c);
      SessionSettles(chats[1..], mapNames, c0, first.config);
      SyncCountConcat(first.effects, Session(chats[1..], mapNames, first.config).effects);
    }
  }

  lemma {:induction false} SyncCountConcat(a: seq<Effect>, b: seq<Effect>)
    ensures SyncCount(a + b) == SyncCount(a) + SyncCount(b)
    decreases |a|
  {
    if |a| == 0 {
      assert a + b == b;
    } else {
      assert (a + b)[1..] == a[1..] + b;
      SyncCountConcat(a[1..], b);
    }
  }
}

=== FILE: report.dfy ===
/**
 The end-of-game report: every player is classified by precedence
 impostor > spy > madmate > crewmate, and each player who is not a crewmate
 announces their role in public chat. Crewmates only reach the log.
 */
module Report {
  import opened Roles

  datatype Category = Impostor | Spy | MadMate | Crewmate

  /**
   The one category of a player: the host's impostor flag wins over the
   listener's lists, a spy listing wins over a madmate listing, and a player
   on neither list is a crewmate.
   */
  function Classify(p: Player, s: RoleState): (c: Category)
    ensures p.isImpostor ==> c == Impostor
    ensures c == Spy <==> !p.isImpostor && p.id in s.spys
    ensures c == MadMate <==> !p.isImpostor && p.id !in s.spys && p.id in s.madMates
    ensures c == Crewmate <==> !p.isImpostor && p.id !in s.spys && p.id !in s.madMates
  {
    if p.isImpostor then Impostor
    else if p.id in s.spys then Spy
    else if p.id in s.madMates then MadMate
    else Crewmate
  }

  /** A public chat message in which `speaker` states their role. */
  datatype Announcement = Announcement(speaker: PlayerId, name: string, role: Category)

  function AnnouncementOf(p: Player, s: RoleState): Announcement {
    Announcement(p.id, p.name, Classify(p, s))
  }

  function CategoryCount(players: seq<Player>, s: RoleState, c: Category): nat
    decreases |players|
  {
    if |players| == 0 then 0
    else (if Classify(players[0], s) == c then 1 else 0) + CategoryCount(players[1..], s, c)
  }

  /**
   `OnGameEnded`: the public announcements, in player order, one for each
   player who is not a crewmate; there are as many as there are players minus
   crewmates.
   */
  function OnGameEnded(players: seq<Player>, s: RoleState): (out: seq<Announcement>)
    ensures |out| + CategoryCount(players, s, Crewmate) == |players|
    ensures forall k :: 0 <= k < |out| ==> out[k].role != Crewmate
    decreases |players|
  {
    if |players| == 0 then []
    else
      var p := players[0];
      var rest := OnGameEnded(players[1..], s);
      if Classify(p, s) == Crewmate then rest else [AnnouncementOf(p, s)] + rest
  }

  /** Every player is in exactly one category, so the four counts add up to the number of players. */
  lemma {:induction false} CategoriesPartitionPlayers(players: seq<Player>, s: RoleState)
    ensures CategoryCount(players, s, Impostor) + CategoryCount(players, s, Spy)
          + CategoryCount(players, s, MadMate) + CategoryCount(players, s, Crewmate) == |players|
    decreases |players|
  {
    if |players| > 0 {
      CategoriesPartitionPlayers(players[1..], s);
    }
  }

  /** An announcement is made exactly for each player who is not a crewmate, carrying that player's category. */
  lemma {:induction false} AnnouncedExactlyNonCrew(players: seq<Player>, s: RoleState, a: Announcement)
    ensures a in OnGameEnded(players, s) <==>
      exists j :: 0 <= j < |players| && Classify(players[j], s) != Crewmate && a == AnnouncementOf(players[j], s)
    decreases |players|
  {
    if |players| > 0 {
      AnnouncedExactlyNonCrew(players[1..], s, a);
      var tail := players[1..];
      if exists j :: 0 <= j < |tail| && Classify(tail[j], s) != Crewmate && a == AnnouncementOf(tail[j], s) {
        var j :| 0 <= j < |tail| && Classify(tail[j], s) != Crewmate && a == AnnouncementOf(tail[j], s);
        assert players[j + 1] == tail[j];
      }
      if exists j :: 0 <= j < |players| && Classify(players[j], s) != Crewmate && a == AnnouncementOf(players[j], s) {
        var j :| 0 <= j < |players| && Classify(players[j], s) != Crewmate && a == AnnouncementOf(players[j], s);
        if j > 0 {
          assert tail[j - 1] == players[j];
        }
      }
    }
  }

  /**
   After a game started from no leftover spies, with unique ids and
   non-impostor leftover madmates, every player the start listed as a madmate
   is reported as a madmate and every listed spy as a spy.
   */
  lemma ReportMatchesSelection(players: seq<Player>, s: RoleState, numMadMates: int, numSpys: int,
                               mateDraws: seq<int>, spyDraws: seq<int>, p: Player)
    requires AllDraws(mateDraws, numMadMates) && AllDraws(spyDraws, numSpys)
    requires s.spys == [] && UniqueIds(players) && NoImpostorIn(players, s.madMates)
    requires p in players
    ensures var r := OnGameStarted(players, s, numMadMates, numSpys, mateDraws, spyDraws).state;
      && (p.id in r.spys ==> Classify(p, r) == Spy)
      && (p.id in r.madMates ==> Classify(p, r) == MadMate)
  {
  }
}

=== FILE: roles.dfy ===
/**
 Secret-role selection at game start, modelled as written: two loops that draw
 an index in [0, target) (not [0, number of players)), look that player up,
 and append its id to the madmate or spy list when it is eligible. The lists
 are fields of the one listener the server shares among all its games and are
 never cleared, so they carry over from one game to the next; here they are
 the incoming `RoleState`, whatever earlier or concurrent games left in it.
 The random draws are supplied by the caller as a sequence; the loops need not
 terminate, so a run over finitely many draws may end before the target is
 reached.
 */
module Roles {

  /** Player ids are bytes. */
  type PlayerId = x: int | 0 <= x < 256

  datatype Player = Player(id: PlayerId, name: string, isImpostor: bool)

  /** The listener's role lists, in selection order; duplicates are possible. */
  datatype RoleState = RoleState(madMates: seq<PlayerId>, spys: seq<PlayerId>)

  datatype WhisperText = ChosenAsMadMate | ChosenAsSpy | ImpostorIs(name: string)

  /** A private message, sent by a selected player's character to itself. */
  datatype Whisper = Whisper(to: PlayerId, text: WhisperText)

  /** One loop iteration: the state and messages after it, or the exception `ElementAt` throws. */
  datatype Step = Drawn(state: RoleState, sent: seq<Whisper>) | OutOfRange

  /**
   How a run over a finite sequence of draws ends: the target was reached; the
   draws ran out with the loop still running; or a draw past the end of the
   player list threw. The state is the listener's state at that point, since
   appends made before an exception persist.
   */
  datatype Status = Filled | Stalled | Thrown

  datatype Selection = Selection(state: RoleState, sent: seq<Whisper>, status: Status)

  /** `id` belongs to some player who is not an impostor. */
  predicate IsCrewId(players: seq<Player>, id: PlayerId) {
    exists j :: 0 <= j < |players| && players[j].id == id && !players[j].isImpostor
  }

  predicate AllDraws(draws: seq<int>, target: int) {
    forall i :: 0 <= i < |draws| ==> 0 <= draws[i] < target
  }

  function ImpostorCount(players: seq<Player>): nat
  {
    if |players| == 0 then 0
    else (if players[0].isImpostor then 1 else 0) + ImpostorCount(players[1..])
  }

  /** The intel a new spy receives: one message naming each impostor, in player order. */
  function ImpostorIntel(players: seq<Player>, to: PlayerId): (w: seq<Whisper>)
    ensures |w| == ImpostorCount(players)
    ensures forall k :: 0 <= k < |w| ==> w[k].to == to && w[k].text.ImpostorIs?
    decreases |players|
  {
    if |players| == 0 then []
    else (if players[0].isImpostor then [Whisper(to, ImpostorIs(players[0].name))] else []) + ImpostorIntel(players[1..], to)
  }

  /** Every name in the intel is the name of an impostor. */
  lemma {:induction false} IntelNamesImpostors(players: seq<Player>, to: PlayerId, k: nat)
    requires k < |ImpostorIntel(players, to)|
    ensures exists j :: 0 <= j < |players| && players[j].isImpostor &&
                        ImpostorIntel(players, to)[k].text == ImpostorIs(players[j].name)
    decreases |players|
  {
    var head := if players[0].isImpostor then [Whisper(to, ImpostorIs(players[0].name))] else [];
    var w := ImpostorIntel(players, to);
    if k < |head| {
      assert w[k] == head[0];
      assert players[0].isImpostor && w[k].text == ImpostorIs(players[0].name);
    } else {
      var rest := ImpostorIntel(players[1..], to);
      assert w[k] == rest[k - |head|];
      IntelNamesImpostors(players[1..], to, k - |head|);
      var j :| 0 <= j < |players[1..]| && players[1..][j].isImpostor && rest[k - |head|].text == ImpostorIs(players[1..][j].name);
      assert players[j + 1] == players[1..][j];
    }
  }

  /** Every impostor is named in the intel. */
  lemma {:induction false} IntelNamesEveryImpostor(players: seq<Player>, to: PlayerId, j: nat)
    requires j < |players| && players[j].isImpostor
    ensures Whisper(to, ImpostorIs(players[j].name)) in ImpostorIntel(players, to)
    decreases |players|
  {
    if j > 0 {
      IntelNamesEveryImpostor(players[1..], to, j - 1);
      assert players[1..][j - 1] == players[j];
    }
  }

  /** What each new madmate in `ids` is told, in order. */
  function MadMateNotices(ids: seq<PlayerId>): (w: seq<Whisper>)
    ensures |w| == |ids|
  {
    seq(|ids|, k requires 0 <= k < |ids| => Whisper(ids[k], ChosenAsMadMate))
  }

  /** What each new spy in `ids` is sent, in order: the notice, then the impostor intel. */
  function SpyNotices(players: seq<Player>, ids: seq<PlayerId>): seq<Whisper>
    decreases |ids|
  {
    if |ids| == 0 then []
    else [Whisper(ids[0], ChosenAsSpy)] + ImpostorIntel(players, ids[0]) + SpyNotices(players, ids[1..])
  }

  /** Each new spy costs one notice plus one message per impostor. */
  lemma {:induction false} SpyNoticesCount(players: seq<Player>, ids: seq<PlayerId>)
    ensures |SpyNotices(players, ids)| == |ids| * (1 + ImpostorCount(players))
    decreases |ids|
  {
    if |ids| > 0 {
      SpyNoticesCount(players, ids[1..]);
      var per := 1 + ImpostorCount(players);
      assert |ids| * per == (|ids| - 1) * per + per;
    }
  }

  // ---------------------------------------------------------------- one iteration

  /**
   One iteration of the madmate loop with the drawn index `draw`: an impostor
   is skipped; anyone else is appended (even when already listed) and told.
   */
  function MadMateStep(players: seq<Player>, s: RoleState, draw: int): (r: Step)
    requires 0 <= draw
    ensures r.OutOfRange? <==> draw >= |players|
    ensures r.Drawn? ==> r.state.spys == s.spys && s.madMates <= r.state.madMates
    ensures r.Drawn? ==> (|r.state.madMates| == |s.madMates| + 1 <==> !players[draw].isImpostor)
    ensures r.Drawn? ==> |r.state.madMates| <= |s.madMates| + 1
    ensures r.Drawn? && |r.state.madMates| > |s.madMates| ==>
      IsCrewId(players, r.state.madMates[|s.madMates|])
      && r.sent == [Whisper(r.state.madMates[|s.madMates|], ChosenAsMadMate)]
    ensures r.Drawn? && |r.state.madMates| == |s.madMates| ==> r.sent == []
    ensures r.Drawn? && !players[draw].isImpostor ==> r.state.madMates == s.madMates + [players[draw].id]
  {
    if draw >= |players| then OutOfRange
    else
      var p := players[draw];
      if p.isImpostor then Drawn(s, [])
      else Drawn(s.(madMates := s.madMates + [p.id]), [Whisper(p.id, ChosenAsMadMate)])
  }

  /**
   One iteration of the spy loop: an impostor or a player already among the
   madmates is skipped; anyone else is appended (the spy list itself is not
   consulted), told, and sent one message per impostor.
   */
  function SpyStep(players: seq<Player>, s: RoleState, draw: int): (r: Step)
    requires 0 <= draw
    ensures r.OutOfRange? <==> draw >= |players|
    ensures r.Drawn? ==> r.state.madMates == s.madMates && s.spys <= r.state.spys
    ensures r.Drawn? ==>
      (|r.state.spys| == |s.spys| + 1 <==> !players[draw].isImpostor && players[draw].id !in s.madMates)
    ensures r.Drawn? ==> |r.state.spys| <= |s.spys| + 1
    ensures r.Drawn? && |r.state.spys| > |s.spys| ==>
      var id := r.state.spys[|s.spys|];
      && IsCrewId(players, id) && id !in s.madMates
      && r.sent == [Whisper(id, ChosenAsSpy)] + ImpostorIntel(players, id)
    ensures r.Drawn? && |r.state.spys| == |s.spys| ==> r.sent == []
    ensures r.Drawn? && !players[draw].isImpostor && players[draw].id !in s.madMates ==>
      r.state.spys == s.spys + [players[draw].id]
  {
    if draw >= |players| then OutOfRange
    else
      var p := players[draw];
      if p.isImpostor || p.id in s.madMates then Drawn(s, [])
      else Drawn(s.(spys := s.spys + [p.id]), [Whisper(p.id, ChosenAsSpy)] + ImpostorIntel(players, p.id))
  }

  // ---------------------------------------------------------------- the loops

  /**
   The madmate loop `while (madMates.Count < numMadMates)` run over the given
   draws. It only appends ids of non-impostors, never touches the spy list,
   stops exactly when the target is reached, never overshoots a target it
   started below, and sends one message per append.
   */
  function SelectMadMates(players: seq<Player>, s: RoleState, target: int, draws: seq<int>): (r: Selection)
    requires AllDraws(draws, target)
    ensures r.state.spys == s.spys
    ensures s.madMates <= r.state.madMates
    ensures forall k :: |s.madMates| <= k < |r.state.madMates| ==> IsCrewId(players, r.state.madMates[k])
    ensures r.status == Filled <==> |r.state.madMates| >= target
    ensures |s.madMates| < target ==> |r.state.madMates| <= target
    ensures |r.sent| == |r.state.madMates| - |s.madMates|
    ensures forall k :: 0 <= k < |r.sent| ==> r.sent[k] == Whisper(r.state.madMates[|s.madMates| + k], ChosenAsMadMate)
    decreases |draws|
  {
    if |s.madMates| >= target then Selection(s, [], Filled)
    else if |draws| == 0 then Selection(s, [], Stalled)
    else
      match MadMateStep(players, s, draws[0])
      case OutOfRange => Selection(s, [], Thrown)
      case Drawn(s1, sent1) =>
        var rest := SelectMadMates(players, s1, target, draws[1..]);
        assert forall k :: |s.madMates| <= k < |s1.madMates| ==> s1.madMates[k] == rest.state.madMates[k];
        Selection(rest.state, sent1 + rest.sent, rest.status)
  }

  /**
   The spy loop `while (spys.Count < numSpys)` run over the given draws. It only
   appends ids of non-impostors that are not madmates, never touches the
   madmate list, stops exactly when the target is reached, and sends each new
   spy one notice plus one message per impostor.
   */
  function SelectSpys(players: seq<Player>, s: RoleState, target: int, draws: seq<int>): (r: Selection)
    requires AllDraws(draws, target)
    ensures r.state.madMates == s.madMates
    ensures s.spys <= r.state.spys
    ensures forall k :: |s.spys| <= k < |r.state.spys| ==>
      IsCrewId(players, r.state.spys[k]) && r.state.spys[k] !in s.madMates
    ensures r.status == Filled <==> |r.state.spys| >= target
    ensures |s.spys| < target ==> |r.state.spys| <= target
    ensures r.sent == SpyNotices(players, r.state.spys[|s.spys|..])
    decreases |draws|
  {
    if |s.spys| >= target then Selection(s, [], Filled)
    else if |draws| == 0 then Selection(s, [], Stalled)
    else
      match SpyStep(players, s, draws[0])
      case OutOfRange => Selection(s, [], Thrown)
      case Drawn(s1, sent1) =>
        var rest := SelectSpys(players, s1, target, draws[1..]);
        SpyRunExtends(players, s, draws[0], rest.state, rest.sent);
        Selection(rest.state, sent1 + rest.sent, rest.status)
  }

  /** One spy iteration followed by a run that keeps the run's promises keeps them from the start. */
  lemma SpyRunExtends(players: seq<Player>, s: RoleState, draw: int, final: RoleState, later: seq<Whisper>)
    requires 0 <= draw && SpyStep(players, s, draw).Drawn?
    requires var s1 := SpyStep(players, s, draw).state;
      && final.madMates == s1.madMates && s1.spys <= final.spys
      && (forall k :: |s1.spys| <= k < |final.spys| ==>
            IsCrewId(players, final.spys[k]) && final.spys[k] !in s1.madMates)
      && later == SpyNotices(players, final.spys[|s1.spys|..])
    ensures final.madMates == s.madMates && s.spys <= final.spys
    ensures forall k :: |s.spys| <= k < |final.spys| ==>
      IsCrewId(players, final.spys[k]) && final.spys[k] !in s.madMates
    ensures SpyStep(players, s, draw).sent + later == SpyNotices(players, final.spys[|s.spys|..])
  {
  }

  // ---------------------------------------------------------------- what the draws select

  /** Every draw indexes a player, so `ElementAt` never throws. */
  predicate DrawsInRange(players: seq<Player>, draws: seq<int>) {
    forall i :: 0 <= i < |draws| ==> draws[i] < |players|
  }

  /**
   The ids the madmate loop appends for `draws` when nothing stops it early:
   the id of each non-impostor a draw hits, in draw order, up to the first
   draw past the last player.
   */
  function MateHits(players: seq<Player>, draws: seq<int>): seq<PlayerId>
    decreases |draws|
  {
    if |draws| == 0 || !(0 <= draws[0] < |players|) then []
    else
      var p := players[draws[0]];
      (if p.isImpostor then [] else [p.id]) + MateHits(players, draws[1..])
  }

  /** Likewise for the spy loop, which also skips the players among `madMates`. */
  function SpyHits(players: seq<Player>, madMates: seq<PlayerId>, draws: seq<int>): seq<PlayerId>
    decreases |draws|
  {
    if |draws| == 0 || !(0 <= draws[0] < |players|) then []
    else
      var p := players[draws[0]];
      (if p.isImpostor || p.id in madMates then [] else [p.id]) + SpyHits(players, madMates, draws[1..])
  }

  /** `a + b` is a prefix of `a + c` when `b` is a prefix of `c`. */
  lemma PrefixConcat<T>(a: seq<T>, b: seq<T>, c: seq<T>)
    requires b <= c
    ensures a + b <= a + c
  {
    assert (a + c)[..|a + b|] == a + c[..|b|];
  }

  /** What follows a prefix `a` of `c` splits at a longer prefix `b`. */
  lemma SliceAfterPrefix<T>(a: seq<T>, b: seq<T>, c: seq<T>)
    requires a <= b && b <= c
    ensures c[|a|..] == b[|a|..] + c[|b|..]
  {
    assert c == b + c[|b|..];
  }

  /** Draws after an in-range first draw are in range exactly when all the draws are. */
  lemma DrawsInRangeTail(players: seq<Player>, draws: seq<int>)
    requires |draws| > 0 && draws[0] < |players|
    ensures DrawsInRange(players, draws) <==> DrawsInRange(players, draws[1..])
  {
    assert forall i :: 1 <= i < |draws| ==> draws[i] == draws[1..][i - 1];
  }

  /** A madmate run that takes a step in range is that step followed by the run over the remaining draws. */
  lemma MateRunUnfolds(players: seq<Player>, s: RoleState, target: int, draws: seq<int>)
    requires AllDraws(draws, target)
    requires |s.madMates| < target && |draws| > 0 && draws[0] < |players|
    ensures var p := players[draws[0]];
      var s1 := MadMateStep(players, s, draws[0]).state;
      var r := SelectMadMates(players, s, target, draws);
      var rest := SelectMadMates(players, s1, target, draws[1..]);
      var head := if p.isImpostor then [] else [p.id];
      && s1.madMates == s.madMates + head
      && r.state == rest.state && r.status == rest.status
      && r.state.madMates[|s.madMates|..] == head + rest.state.madMates[|s1.madMates|..]
      && MateHits(players, draws) == head + MateHits(players, draws[1..])
  {
    var s1 := MadMateStep(players, s, draws[0]).state;
    var rest := SelectMadMates(players, s1, target, draws[1..]);
    assert SelectMadMates(players, s, target, draws) == Selection(rest.state, MadMateStep(players, s, draws[0]).sent + rest.sent, rest.status);
    SliceAfterPrefix(s.madMates, s1.madMates, rest.state.madMates);
  }

  /** Likewise for a spy run. */
  lemma SpyRunUnfolds(players: seq<Player>, s: RoleState, target: int, draws: seq<int>)
    requires AllDraws(draws, target)
    requires |s.spys| < target && |draws| > 0 && draws[0] < |players|
    ensures var p := players[draws[0]];
      var s1 := SpyStep(players, s, draws[0]).state;
      var r := SelectSpys(players, s, target, draws);
      var rest := SelectSpys(players, s1, target, draws[1..]);
      var head := if p.isImpostor || p.id in s.madMates then [] else [p.id];
      && s1.madMates == s.madMates && s1.spys == s.spys + head
      && r.state == rest.state && r.status == rest.status
      && r.state.spys[|s.spys|..] == head + rest.state.spys[|s1.spys|..]
      && SpyHits(players, s.madMates, draws) == head + SpyHits(players, s.madMates, draws[1..])
  {
    var s1 := SpyStep(players, s, draws[0]).state;
    var rest := SelectSpys(players, s1, target, draws[1..]);
    assert SelectSpys(players, s, target, draws) == Selection(rest.state, SpyStep(players, s, draws[0]).sent + rest.sent, rest.status);
    SliceAfterPrefix(s.spys, s1.spys, rest.state.spys);
  }

  /**
   The madmate loop appends exactly what the draws hit: the new madmates are a
   prefix of the hits, and all of them unless the target cut the run short; so
   draws that hit enough eligible players fill the list.
   */
  lemma {:induction false} MadMatesFollowDraws(players: seq<Player>, s: RoleState, target: int, draws: seq<int>)
    requires AllDraws(draws, target)
    ensures var r := SelectMadMates(players, s, target, draws);
      && r.state.madMates[|s.madMates|..] <= MateHits(players, draws)
      && (r.status != Filled ==> r.state.madMates[|s.madMates|..] == MateHits(players, draws))
      && (|s.madMates| + |MateHits(players, draws)| >= target ==> r.status == Filled)
    decreases |draws|
  {
    if |s.madMates| < target && |draws| > 0 && draws[0] < |players| {
      var p := players[draws[0]];
      var s1 := MadMateStep(players, s, draws[0]).state;
      var rest := SelectMadMates(players, s1, target, draws[1..]);
      MadMatesFollowDraws(players, s1, target, draws[1..]);
      MateRunUnfolds(players, s, target, draws);
      PrefixConcat(if p.isImpostor then [] else [p.id], rest.state.madMates[|s1.madMates|..], MateHits(players, draws[1..]));
    }
  }

  /** A madmate run throws only on a draw past the last player, and stalls only when every draw was in range. */
  lemma {:induction false} MadMateRunEnds(players: seq<Player>, s: RoleState, target: int, draws: seq<int>)
    requires AllDraws(draws, target)
    ensures var r := SelectMadMates(players, s, target, draws);
      && (r.status == Thrown ==> !DrawsInRange(players, draws))
      && (r.status == Stalled ==> DrawsInRange(players, draws))
    decreases |draws|
  {
    if |s.madMates| < target && |draws| > 0 && draws[0] < |players| {
      MadMateRunEnds(players, MadMateStep(players, s, draws[0]).state, target, draws[1..]);
      MateRunUnfolds(players, s, target, draws);
      DrawsInRangeTail(players, draws);
    }
  }

  /**
   The spy loop likewise appends exactly the eligible players the draws hit,
   eligibility being judged against the madmate list it starts from.
   */
  lemma {:induction false} SpysFollowDraws(players: seq<Player>, s: RoleState, target: int, draws: seq<int>)
    requires AllDraws(draws, target)
    ensures var r := SelectSpys(players, s, target, draws);
      && r.state.spys[|s.spys|..] <= SpyHits(players, s.madMates, draws)
      && (r.status != Filled ==> r.state.spys[|s.spys|..] == SpyHits(players, s.madMates, draws))
      && (|s.spys| + |SpyHits(players, s.madMates, draws)| >= target ==> r.status == Filled)
    decreases |draws|
  {
    if |s.spys| < target && |draws| > 0 && draws[0] < |players| {
      var p := players[draws[0]];
      var s1 := SpyStep(players, s, draws[0]).state;
      var rest := SelectSpys(players, s1, target, draws[1..]);
      SpysFollowDraws(players, s1, target, draws[1..]);
      SpyRunUnfolds(players, s, target, draws);
      PrefixConcat(if p.isImpostor || p.id in s.madMates then [] else [p.id], rest.state.spys[|s1.spys|..],
                   SpyHits(players, s.madMates, draws[1..]));
    }
  }

  /** A spy run throws only on a draw past the last player, and stalls only when every draw was in range. */
  lemma {:induction false} SpyRunEnds(players: seq<Player>, s: RoleState, target: int, draws: seq<int>)
    requires AllDraws(draws, target)
    ensures var r := SelectSpys(players, s, target, draws);
      && (r.status == Thrown ==> !DrawsInRange(players, draws))
      && (r.status == Stalled ==> DrawsInRange(players, draws))
    decreases |draws|
  {
    if |s.spys| < target && |draws| > 0 && draws[0] < |players| {
      SpyRunEnds(players, SpyStep(players, s, draws[0]).state, target, draws[1..]);
      SpyRunUnfolds(players, s, target, draws);
      DrawsInRangeTail(players, draws);
    }
  }

  /**
   `OnGameStarted`: the madmate loop, then, only if it finished, the spy loop.
   Both lists only grow; every new madmate and every new spy is a
   non-impostor's id; no new spy is a madmate at the end.
   */
  function OnGameStarted(players: seq<Player>, s: RoleState, numMadMates: int, numSpys: int,
                         mateDraws: seq<int>, spyDraws: seq<int>): (r: Selection)
    requires AllDraws(mateDraws, numMadMates) && AllDraws(spyDraws, numSpys)
    ensures s.madMates <= r.state.madMates && s.spys <= r.state.spys
    ensures forall k :: |s.madMates| <= k < |r.state.madMates| ==> IsCrewId(players, r.state.madMates[k])
    ensures forall k :: |s.spys| <= k < |r.state.spys| ==>
      IsCrewId(players, r.state.spys[k]) && r.state.spys[k] !in r.state.madMates
    ensures r.status == Filled ==> |r.state.madMates| >= numMadMates && |r.state.spys| >= numSpys
    ensures |r.state.spys| > |s.spys| ==> |r.state.madMates| >= numMadMates
    ensures r.sent == MadMateNotices(r.state.madMates[|s.madMates|..]) + SpyNotices(players, r.state.spys[|s.spys|..])
  {
    var m := SelectMadMates(players, s, numMadMates, mateDraws);
    assert m.sent == MadMateNotices(m.state.madMates[|s.madMates|..]);
    if m.status != Filled then
      assert m.state.spys[|s.spys|..] == [];
      m
    else
      var p := SelectSpys(players, m.state, numSpys, spyDraws);
      Selection(p.state, m.sent + p.sent, p.status)
  }

  /**
   A game start selects what its draws hit: the new madmates are a prefix of
   the madmate draws' hits, all of them unless the madmate target was met; the
   new spies are a prefix of the spy draws' hits among non-madmates, all of
   them when the spy loop ran and did not finish; and draws that all index a
   player never make the start throw.
   */
  lemma StartFollowsDraws(players: seq<Player>, s: RoleState, numMadMates: int, numSpys: int,
                          mateDraws: seq<int>, spyDraws: seq<int>)
    requires AllDraws(mateDraws, numMadMates) && AllDraws(spyDraws, numSpys)
    ensures var r := OnGameStarted(players, s, numMadMates, numSpys, mateDraws, spyDraws);
      && r.state.madMates[|s.madMates|..] <= MateHits(players, mateDraws)
      && (|r.state.madMates| < numMadMates ==> r.state.madMates[|s.madMates|..] == MateHits(players, mateDraws))
      && r.state.spys[|s.spys|..] <= SpyHits(players, r.state.madMates, spyDraws)
      && (r.status != Filled && |r.state.madMates| >= numMadMates ==>
            r.state.spys[|s.spys|..] == SpyHits(players, r.state.madMates, spyDraws))
      && (DrawsInRange(players, mateDraws) && DrawsInRange(players, spyDraws) ==> r.status != Thrown)
  {
    var m := SelectMadMates(players, s, numMadMates, mateDraws);
    MadMatesFollowDraws(players, s, numMadMates, mateDraws);
    MadMateRunEnds(players, s, numMadMates, mateDraws);
    if m.status == Filled {
      SpysFollowDraws(players, m.state, numSpys, spyDraws);
      SpyRunEnds(players, m.state, numSpys, spyDraws);
    } else {
      assert m.state.spys[|s.spys|..] == [];
    }
  }

  // ---------------------------------------------------------------- round properties

  /** Ids identify players: the host gives each player in a game its own id. */
  predicate UniqueIds(players: seq<Player>) {
    forall i, j :: 0 <= i < |players| && 0 <= j < |players| && players[i].id == players[j].id ==> i == j
  }

  /** No impostor's id is in `ids`. */
  predicate NoImpostorIn(players: seq<Player>, ids: seq<PlayerId>) {
    forall j :: 0 <= j < |players| && players[j].isImpostor ==> players[j].id !in ids
  }

  /**
   Starting a game with no spies left over, no id ends up both a madmate and a
   spy; and when ids are unique and the carried-over madmates are not impostors,
   no impostor holds either secret role.
   */
  lemma StartKeepsRolesApart(players: seq<Player>, s: RoleState, numMadMates: int, numSpys: int,
                             mateDraws: seq<int>, spyDraws: seq<int>)
    requires AllDraws(mateDraws, numMadMates) && AllDraws(spyDraws, numSpys)
    requires s.spys == []
    ensures var r := OnGameStarted(players, s, numMadMates, numSpys, mateDraws, spyDraws).state;
      forall id :: id in r.spys ==> id !in r.madMates
    ensures var r := OnGameStarted(players, s, numMadMates, numSpys, mateDraws, spyDraws).state;
      UniqueIds(players) && NoImpostorIn(players, s.madMates) ==>
        NoImpostorIn(players, r.madMates) && NoImpostorIn(players, r.spys)
  {
  }

  /**
   When the draws can only reach impostors, the madmate loop never finishes:
   it stalls or throws with the list as it was.
   */
  lemma {:induction false} MadMatesStallAmongImpostors(players: seq<Player>, s: RoleState, target: int, draws: seq<int>)
    requires AllDraws(draws, target)
    requires forall j :: 0 <= j < |players| && j < target ==> players[j].isImpostor
    requires |s.madMates| < target
    ensures SelectMadMates(players, s, target, draws).status != Filled
    ensures SelectMadMates(players, s, target, draws).state == s
    decreases |draws|
  {
    if |draws| > 0 && draws[0] < |players| {
      assert MadMateStep(players, s, draws[0]) == Drawn(s, []);
      MadMatesStallAmongImpostors(players, s, target, draws[1..]);
    }
  }

  /**
   Likewise the spy loop never finishes when every player it can reach is an
   impostor or already a madmate.
   */
  lemma {:induction false} SpysStallWithoutCandidates(players: seq<Player>, s: RoleState, target: int, draws: seq<int>)
    requires AllDraws(draws, target)
    requires forall j :: 0 <= j < |players| && j < target ==> players[j].isImpostor || players[j].id in s.madMates
    requires |s.spys| < target
    ensures SelectSpys(players, s, target, draws).status != Filled
    ensures SelectSpys(players, s, target, draws).state == s
    decreases |draws|
  {
    if |draws| > 0 && draws[0] < |players| {
      assert SpyStep(players, s, draws[0]) == Drawn(s, []);
      SpysStallWithoutCandidates(players, s, target, draws[1..]);
    }
  }

  /**
   The role lists are never cleared: a later game whose targets were already
   met selects nobody and sends nothing, keeping the earlier game's roles.
   */
  lemma RolesCarryOver(players: seq<Player>, s: RoleState, numMadMates: int, numSpys: int,
                       mateDraws: seq<int>, spyDraws: seq<int>)
    requires AllDraws(mateDraws, numMadMates) && AllDraws(spyDraws, numSpys)
    requires |s.madMates| >= numMadMates && |s.spys| >= numSpys
    ensures OnGameStarted(players, s, numMadMates, numSpys, mateDraws, spyDraws) == Selection(s, [], Filled)
  {
  }

  /** The madmate loop does not check the list: drawing the same player twice lists it twice. */
  lemma MadMateListedTwice()
    ensures var p := Player(7, "crew", false);
      SelectMadMates([p], RoleState([], []), 2, [0, 0]).state.madMates == [7, 7]
  {
  }

  /** The draw ranges over the target, not the players: a target above the player count can throw. */
  lemma DrawPastPlayersThrows()
    ensures SelectMadMates([Player(7, "crew", false)], RoleState([], []), 2, [1]).status == Thrown
  {
  }
}

=== FILE: text.dfy ===
/**
 The string primitives the chat-command interpreter relies on, stated over
 `seq<char>`: invariant lower-casing (ASCII letters only), `String.Split(" ")`
 (empty entries kept) and `int.TryParse` for a 32-bit signed integer.
 */
module Text {

  datatype Option<+T> = None | Some(value: T)

  const Int32Min: int := -0x8000_0000
  const Int32Max: int := 0x7FFF_FFFF

  predicate InInt32(n: int) {
    Int32Min <= n <= Int32Max
  }

  // ---------------------------------------------------------------- casing

  predicate IsUpper(c: char) {
    'A' <= c <= 'Z'
  }

  function LowerChar(c: char): (d: char)
    ensures !IsUpper(d)
    ensures !IsUpper(c) ==> d == c
    ensures IsUpper(c) ==> 'a' <= d <= 'z' && d as int - c as int == 'a' as int - 'A' as int
  {
    if IsUpper(c) then (c as int - 'A' as int + 'a' as int) as char else c
  }

  /** The invariant-culture lower-case form of `s`, letter by letter. */
  function Lower(s: string): (r: string)
    ensures |r| == |s|
    ensures forall i :: 0 <= i < |r| ==> !IsUpper(r[i])
    ensures forall i :: 0 <= i < |s| && !IsUpper(s[i]) ==> r[i] == s[i]
    ensures forall i :: 0 <= i < |s| && IsUpper(s[i]) ==> r[i] as int == s[i] as int + ('a' as int - 'A' as int)
  {
    seq(|s|, i requires 0 <= i < |s| => LowerChar(s[i]))
  }

  /** Lower-casing a lower-case string changes nothing. */
  lemma LowerIdempotent(s: string)
    ensures Lower(Lower(s)) == Lower(s)
  {
  }

  /** Lower-casing commutes with taking a slice and with concatenation. */
  lemma LowerSlice(s: string, i: nat)
    requires i <= |s|
    ensures Lower(s)[i..] == Lower(s[i..])
  {
  }

  lemma LowerConcat(a: string, b: string)
    ensures Lower(a + b) == Lower(a) + Lower(b)
  {
  }

  // ---------------------------------------------------------------- splitting

  /** The position of the first `c` in `s`. */
  function FirstIndex(s: string, c: char): (i: nat)
    requires c in s
    ensures i < |s| && s[i] == c
    ensures c !in s[..i]
  {
    if s[0] == c then 0 else 1 + FirstIndex(s[1..], c)
  }

  /** `String.Join` with a one-character separator, for a non-empty list of pieces. */
  function Join(parts: seq<string>, sep: char): string
    requires |parts| >= 1
    decreases |parts|
  {
    if |parts| == 1 then parts[0] else parts[0] + [sep] + Join(parts[1..], sep)
  }

  /**
   `s.Split(sep)`: the maximal pieces of `s` that do not contain `sep`, in order,
   keeping empty pieces (so the result is never empty, and a string with k
   separators yields k + 1 pieces). Joining the pieces gives `s` back.
   */
  function Split(s: string, sep: char): (parts: seq<string>)
    ensures |parts| >= 1
    ensures forall i :: 0 <= i < |parts| ==> sep !in parts[i]
    ensures Join(parts, sep) == s
    decreases |s|
  {
    if sep !in s then [s]
    else
      var i := FirstIndex(s, sep);
      var rest := Split(s[i + 1..], sep);
      assert s == s[..i] + [sep] + s[i + 1..];
      [s[..i]] + rest
  }

  /** Every character of a piece is a character of the split string. */
  lemma {:induction false} SplitPiecesFrom(s: string, sep: char)
    ensures forall i, k :: 0 <= i < |Split(s, sep)| && 0 <= k < |Split(s, sep)[i]| ==> Split(s, sep)[i][k] in s
    decreases |s|
  {
    if sep in s {
      var i := FirstIndex(s, sep);
      SplitPiecesFrom(s[i + 1..], sep);
      assert forall k :: 0 <= k < i ==> s[..i][k] == s[k];
      assert forall c :: c in s[i + 1..] ==> c in s;
    }
  }

  /** The pieces are recovered from their join when none contains the separator. */
  lemma {:induction false} SplitJoin(parts: seq<string>, sep: char)
    requires |parts| >= 1
    requires forall i :: 0 <= i < |parts| ==> sep !in parts[i]
    ensures Split(Join(parts, sep), sep) == parts
    decreases |parts|
  {
    if |parts| == 1 {
      assert Join(parts, sep) == parts[0];
    } else {
      var tail := Join(parts[1..], sep);
      var s := parts[0] + [sep] + tail;
      assert Join(parts, sep) == s;
      assert sep in s by { assert s[|parts[0]|] == sep; }
      var i := FirstIndex(s, sep);
      assert forall k :: 0 <= k < |parts[0]| ==> s[k] == parts[0][k];
      assert i <= |parts[0]| by {
        assert forall k :: 0 <= k < i ==> s[..i][k] == s[k];
      }
      assert i == |parts[0]|;
      assert s[..i] == parts[0];
      assert s[i + 1..] == tail;
      SplitJoin(parts[1..], sep);
      assert Split(s, sep) == [parts[0]] + parts[1..];
    }
  }

  // ---------------------------------------------------------------- integers

  predicate IsDigit(c: char) {
    '0' <= c <= '9'
  }

  predicate AllDigits(s: string) {
    forall i :: 0 <= i < |s| ==> IsDigit(s[i])
  }

  /** The decimal value of a digit string (leading zeros allowed). */
  function DigitsValue(s: string): nat
    requires AllDigits(s)
    decreases |s|
  {
    if |s| == 0 then 0
    else 10 * DigitsValue(s[..|s| - 1]) + (s[|s| - 1] as int - '0' as int)
  }

  /** The sign prefix `int.TryParse` accepts, as (negative?, digits). */
  function SplitSign(s: string): (bool, string)
  {
    if |s| > 0 && (s[0] == '-' || s[0] == '+') then (s[0] == '-', s[1..]) else (false, s)
  }

  /** An optional sign followed by one or more decimal digits. */
  predicate IsIntegerText(s: string) {
    var (_, digits) := SplitSign(s);
    |digits| > 0 && AllDigits(digits)
  }

  function IntegerTextValue(s: string): int
    requires IsIntegerText(s)
  {
    var (negative, digits) := SplitSign(s);
    if negative then -(DigitsValue(digits) as int) else DigitsValue(digits)
  }

  /**
   `int.TryParse(s, out n)`: `Some(n)` exactly when `s` is an optionally signed
   digit string whose value fits in 32 bits; a value that overflows is refused.
   */
  function ParseInt32(s: string): (r: Option<int>)
    ensures r.Some? <==> IsIntegerText(s) && InInt32(IntegerTextValue(s))
    ensures r.Some? ==> InInt32(r.value) && r.value == IntegerTextValue(s)
    ensures r.Some? ==> forall i :: 0 <= i < |s| ==> s[i] != ' '
  {
    if !IsIntegerText(s) then None
    else
      var v := IntegerTextValue(s);
      if InInt32(v) then Some(v) else None
  }

  /** The canonical decimal form of a natural number. */
  function ShowNat(n: nat): (s: string)
    ensures |s| >= 1 && AllDigits(s)
    ensures DigitsValue(s) == n
    decreases n
  {
    if n < 10 then [('0' as int + n) as char]
    else
      var prefix := ShowNat(n / 10);
      var s := prefix + [('0' as int + n % 10) as char];
      assert s[..|s| - 1] == prefix;
      s
  }

  /** The canonical decimal form of an integer, with a `-` when negative. */
  function ShowInt(n: int): string
  {
    if n < 0 then "-" + ShowNat(-n) else ShowNat(n)
  }

  /** Every 32-bit integer survives printing and `int.TryParse`. */
  lemma ParseShowInt(n: int)
    requires InInt32(n)
    ensures ParseInt32(ShowInt(n)) == Some(n)
    ensures ' ' !in ShowInt(n)
  {
  }
}
